=== FILE: README.md ===
# User service — a Dafny model

This project models the user-management core of the `user-service` Spring
application. The core has four parts:

- the users table with its derived queries (`UserRepository`);
- the rules of `UserService` that guard the table;
- the `UserMapper` conversions between request bodies, entities and
  responses;
- the bean-validation constraints on the POST and PUT request bodies.

It also covers the three queries of the user/profile association table
(`UserProfileRepository`).

The table is a finite map from id to `User` plus the next value of the
identity column. Every service operation is a pure function from the table
to its outcome (`Ok` or a failure: `NotFound`, `EmailAlreadyExists`, a null
id, or a `NumberFormatException`) and the table afterwards. A failed
operation leaves the table unchanged. Java `null` is `Nullable.Null`.
Password hashing is a function parameter `encode` on non-null text. The
mappers call the encoder on a null password too. The model assumes that
call returns normally and treats its result as null (see "## Left out").

Modules, one per file:

| module | file | contents |
|---|---|---|
| `Nullables` | nullables.dfy | nullable references |
| `Seqs` | seqs.dfy | order-preserving filter, first match |
| `Text` | text.dfy | ASCII case-insensitive equality; Java `String.trim` |
| `JavaLong` | java_long.dfy | `Long.parseLong` on ASCII decimal text, and its inverse |
| `EmailPattern` | email_pattern.dfy | the address regex as a grammar, and a recognizer proved equal to it |
| `Domain` | domain.dfy | `User`, `Profile`, `UserProfile`, failures, results |
| `UserRepository` | user_repository.dfy | the users table and its queries |
| `UserProfileRepository` | user_profile_repository.dfy | the association queries |
| `UserRequests` | user_requests.dfy | POST/PUT bodies and their validation |
| `UserMapper` | user_mapper.dfy | the MapStruct mappings and the update merge |
| `UserService` | user_service.dfy | the service rules |

The update merge maps the entity's `id` from `userToUpdate.roles`
(`UserMapper.java:35`). MapStruct converts a `String` to a `Long` with
`Long.parseLong`. The model keeps that conversion literally:

- null roles give a null id;
- decimal roles give that number;
- any other roles give a `NumberFormatException`.

See "## Findings" for what follows from this.

## Model

| member | source | states |
|---|---|---|
| UserRepository.FindAll | src/main/java/academy/devdojo/repository/UserRepository.java:11 | the inherited `findAll` lists every stored row exactly once (as many entries as rows, each the row stored under its own id, every row present), in ascending id order |
| UserRepository.FindById | src/main/java/academy/devdojo/repository/UserRepository.java:11 | the inherited `findById` is present exactly when the id is a key, and then holds that row |
| UserRepository.FindByFirstNameIgnoreCase | src/main/java/academy/devdojo/repository/UserRepository.java:13 | returns exactly the stored rows whose first name equals the argument up to case, in id order, and nothing when no row matches |
| UserRepository.FindByEmail | src/main/java/academy/devdojo/repository/UserRepository.java:15 | present iff some stored row has exactly this email, and then a stored row with that email |
| UserRepository.FindByEmailAndIdNot | src/main/java/academy/devdojo/repository/UserRepository.java:16 | present iff a row with a different id holds the email, and never the row with that id; so it is empty when only that id holds the email |
| UserRepository.Save | src/test/java/academy/devdojo/repository/UserRepositoryTest.java:29-35 | a user without an id is stored with all its fields under a fresh positive id; a user with an id replaces that row; the table stays well formed |
| UserRepository.Delete | src/main/java/academy/devdojo/repository/UserRepository.java:11 | the inherited `delete` removes exactly the given key and leaves every other row as it was |
| UserProfileRepository.RetrieveAll | src/main/java/academy/devdojo/repository/UserProfileRepository.java:14-15 | the `join fetch` query returns the association rows that have both a user and a profile, all of them, and as many entries as there are such rows |
| UserProfileRepository.FindAll | src/main/java/academy/devdojo/repository/UserProfileRepository.java:17-19 | the entity-graph `findAll` returns every association row, in order |
| UserProfileRepository.RetrieveAllMatchesFindAll | src/main/java/academy/devdojo/repository/UserProfileRepository.java:14-19 | when every row has both sides, the two listings are equal |
| UserProfileRepository.FindAllUserByProfileId | src/main/java/academy/devdojo/repository/UserProfileRepository.java:21-22 | returns one user per row linked to the profile (as many as such rows), each the user of such a row, and the user of every such row; each user appears exactly as often as rows link it to the profile; no entry is null |
| UserProfileRepository.TwoUsersOfOneProfile | src/test/java/academy/devdojo/repository/UserProfileRepositoryTest.java:26-34 | two users linked to profile 1 yield exactly those two users |
| UserRequests.ValidatePost | src/main/java/academy/devdojo/request/UserPostRequest.java:14-25 | each message is reported iff its field violates the constraint: the four `@NotBlank` fields (first name, last name, email, password) null or blank in the `trim` sense; "Email is not valid" iff a non-empty email fails the pattern; no other message |
| UserRequests.ValidatePut | src/main/java/academy/devdojo/request/UserPutRequest.java:16-28 | "The field 'id' cannot be null" iff the id is null; the name and email messages as on create; no other message |
| UserRequests.AcceptedPostIsWellFormed | src/main/java/academy/devdojo/request/UserPostRequest.java:14-25 | a POST body with no violation has every field present with a visible character and an email the pattern matches |
| UserRequests.AcceptedPutIsWellFormed | src/main/java/academy/devdojo/request/UserPutRequest.java:16-28 | a PUT body with no violation has an id, visible names and an email the pattern matches |
| EmailPattern.MatchesEmailPatternIsSound | src/main/java/academy/devdojo/request/UserPostRequest.java:22 | the recognizer accepts a string iff it is in the language of `^[\w-\.]+@([\w-]+\.)+[\w-]{2,4}$` |
| EmailPattern.DomainOkIsDomain | src/main/java/academy/devdojo/request/UserPostRequest.java:22 | splitting the domain at its last dot decides `([\w-]+\.)+[\w-]{2,4}` |
| JavaLong.ParseLong | src/main/java/academy/devdojo/mapper/UserMapper.java:35 | the `String`-to-`Long` conversion succeeds on an optional sign followed by ASCII digits whose value lies in the 64-bit range, yielding that value, and fails on empty text and on any other character |
| JavaLong.ParseLongInvertsToString | src/main/java/academy/devdojo/mapper/UserMapper.java:35 | every 64-bit value printed in decimal parses back to itself |
| UserMapper.ToUserFromPost | src/main/java/academy/devdojo/mapper/UserMapper.java:21-23 | no id, roles "USER", names and email copied, password the encoded request password; a null password is taken to stay null (an assumption on the encoder, see "## Left out") |
| UserMapper.ToUserFromPut | src/main/java/academy/devdojo/mapper/UserMapper.java:25 | id, names and email copied; password and roles null, as the PUT body has neither |
| UserMapper.ToUserGetResponse | src/main/java/academy/devdojo/mapper/UserMapper.java:29 | the response keeps id, names and email |
| UserMapper.ResponseHidesSecrets | src/main/java/academy/devdojo/mapper/UserMapper.java:29 | the response does not depend on password or roles |
| UserMapper.ToUserGetResponseList | src/main/java/academy/devdojo/mapper/UserMapper.java:31 | same length, element by element the single response |
| UserMapper.RolesToId | src/main/java/academy/devdojo/mapper/UserMapper.java:35 | null roles give a null id, decimal roles their value, anything else a `NumberFormatException` carrying the text |
| UserMapper.SetPasswordIfNull | src/main/java/academy/devdojo/mapper/UserMapper.java:41-46 | with no raw password the stored hash is put back; otherwise nothing changes |
| UserMapper.ToUserWithPasswordAndRoles | src/main/java/academy/devdojo/mapper/UserMapper.java:33-39 | fails iff the roles do not parse; otherwise roles from the stored user, names and email from the request, password encoded or the stored hash, and id from the roles |
| UserMapper.PutMergeLosesId | src/main/java/academy/devdojo/mapper/UserMapper.java:25-46 | a user from a PUT body always merges to a user with no id and the stored password hash |
| UserMapper.RoleTextMergeFails | src/main/java/academy/devdojo/mapper/UserMapper.java:34-35 | a user whose roles are "USER" cannot be merged |
| UserService.FindAll | src/main/java/academy/devdojo/service/UserService.java:21-23 | with no name, every stored user; with a name, exactly the users whose first name equals it up to case, and an empty list (not an error) when there are none; either way each user once, in ascending id order |
| UserService.FindAllByOwnNameFindsUser | src/main/java/academy/devdojo/service/UserService.java:22 | searching by a stored user's own first name finds that user |
| UserService.FindByIdOrThrowNotFound | src/main/java/academy/devdojo/service/UserService.java:30-33 | the stored user when the id is a key, else NotFound("User not found") |
| UserService.AssertUserExists | src/main/java/academy/devdojo/service/UserService.java:54-56 | passes iff the id is a key, else NotFound |
| UserService.AssertEmailDoesNotExist | src/main/java/academy/devdojo/service/UserService.java:58-61 | passes iff no row holds the email, else EmailAlreadyExists("E-mail … already exists"); with two or more holders Java raises an incorrect-result-size error instead (see "## Left out") |
| UserService.AssertEmailDoesNotExistForOther | src/main/java/academy/devdojo/service/UserService.java:63-66 | passes iff no row with a different id holds the email |
| UserService.Save | src/main/java/academy/devdojo/service/UserService.java:36-39 | fails with EmailAlreadyExists and keeps the table iff some row holds the email (with two or more holders Java raises an incorrect-result-size error instead, see "## Left out"); otherwise the user is stored (under a fresh positive id when it has none) and every other row is kept |
| UserService.SaveKeepsEmailsUnique | src/main/java/academy/devdojo/service/UserService.java:37-38 | from a table with distinct emails, a successful save keeps them distinct |
| UserService.CreateStoresRequest | src/main/java/academy/devdojo/service/UserService.java:36-39 | a POST body whose email is free is stored under a fresh positive id with roles "USER", and its response echoes the body's names and email |
| UserService.Delete | src/main/java/academy/devdojo/service/UserService.java:41-44 | fails with NotFound and keeps the table iff the id is unknown; otherwise exactly that row goes |
| UserService.UpdateFound | src/main/java/academy/devdojo/service/UserService.java:48-51 | the email check against other rows, then the merge, then the save: succeeds iff no other row holds the email and the roles parse; EmailAlreadyExists or NumberFormat with their messages otherwise, keeping the table |
| UserService.Update | src/main/java/academy/devdojo/service/UserService.java:46-52 | a null id fails with NullId and an unknown id with NotFound, both before any email check; EmailAlreadyExists iff another row holds the email; NumberFormat iff the roles do not parse; succeeds iff none of these apply, and then the merge is written under the key the roles give, or under a new key when they are null, with every other row kept |
| UserService.KeepingOwnEmailPassesCheck | src/main/java/academy/devdojo/service/UserService.java:48 | in a table with distinct emails, a user keeping its own email passes the check |
| UserService.UpdateFromPutInsertsRow | src/main/java/academy/devdojo/service/UserService.java:46-52 | as written, an update from a PUT body succeeds, leaves the user's row untouched and adds a new row with the body's email and the stored hash |
| UserService.UpdateFromPutDuplicatesEmail | src/main/java/academy/devdojo/service/UserService.java:46-52 | as written, such an update that keeps the email leaves two rows holding it |
| UserService.UpdateOneUserCounterexample | src/main/java/academy/devdojo/service/UserService.java:46-52 | the concrete case with a single stored user 1 |
| UserService.UpdateIntended | src/main/java/academy/devdojo/service/UserService.java:46-52 | the corrected update replaces the row of the given id in place with the merge and keeps every other row and key |
| UserService.UpdateIntendedKeepsEmailsUnique | src/main/java/academy/devdojo/service/UserService.java:48-51 | the corrected update keeps emails pairwise distinct |

## Left out

- HTTP controllers, status codes, Spring Security and `@PreAuthorize`: routing and framework configuration, with no rules on the data.
- `findAllPaginated` (`UserService.java:25-27`): a pass-through to the library's paging.
- `toUserPostResponse` (`UserMapper.java:27`): `UserPostResponse` is not part of this model.
- `ProfileService`, `UserProfileService` and the postal-code client: pass-throughs and network I/O.
- Concurrency: the check-then-act on email uniqueness can race between transactions. Each operation here is atomic.
- Password hashing is the parameter `encode`; bcrypt is not modelled.
- UserMapper.ToUserFromPost: MapStruct passes a null request password to `PasswordEncoderMapper.encode` without a null check. The model assumes that call returns normally with null. An encoder that rejects null would fail there instead. Validation rejects a null password before the mapper runs.
- UserMapper.ToUserWithPasswordAndRoles: the same assumption for `rawPassword`, which is always null on the PUT path (`UserService.java:50`). The stored hash is then restored by `setPasswordIfNull`. An encoder that rejects null would make every such update fail before the save; this is also a caveat on UserService.Update, UserService.UpdateFromPutInsertsRow and the finding below.
- UserRepository.FindAll: the source leaves row order to the database. The model fixes ascending id order.
- UserRepository.FindByEmail: when several rows hold the email, Spring Data raises an incorrect-result-size error. The model returns the holder with the lowest id. Its callers UserService.AssertEmailDoesNotExist and UserService.Save therefore report EmailAlreadyExists where Java raises that error. The case is reachable only once emails are duplicated, for instance after the update in "## Findings".
- UserRepository.FindByEmailAndIdNot: likewise, when two or more rows other than the id hold the email, Spring Data raises an incorrect-result-size error, and the model returns the lowest-id holder. Its callers UserService.AssertEmailDoesNotExistForOther, UserService.UpdateFound and UserService.Update therefore report EmailAlreadyExists where Java raises that error. The case is reachable only once emails are duplicated, for instance after the update in "## Findings".
- UserRepository.Save: a present id that is not a key is stored under that id. Before Hibernate 6.6, merge inserts such an entity under a new identity value instead; from Hibernate 6.6 on, merge rejects it with an optimistic-locking failure. The Hibernate version in use is not part of this model, so neither behaviour is modelled.
- UserService.AssertEmailDoesNotExist: when two or more rows hold the email, `findByEmail` raises `IncorrectResultSizeDataAccessException` before `ifPresent` runs. The model reports EmailAlreadyExists instead.
- UserService.Save: inherits the `UserRepository.Save` line above. A user whose id is present but not a key is written under that id, where Java inserts it under a new identity value or fails. No HTTP request reaches this case, because a POST body carries no id. Save also inherits the `UserService.AssertEmailDoesNotExist` gap: with two or more rows already holding the email, Java fails with `IncorrectResultSizeDataAccessException`, and the model fails with EmailAlreadyExists. The table is kept either way.
- UserService.UpdateFound: inherits the same gap through the merge. Numeric roles that name an absent key are written under that key, where Java inserts a new row or fails. No HTTP request reaches this case, because a PUT body carries no roles.
- UserService.Update: the same gap as UserService.UpdateFound, and unreachable over HTTP for the same reason.
- UserRepository.Save: the repository's rejection of a null entity is not modelled, since the service never passes one.
- Text.EqualsIgnoreCase: only ASCII letters are case-folded. Java's `equalsIgnoreCase` and the database's `upper` also fold non-ASCII letters.
- JavaLong.ParseLong: only ASCII digits are accepted. Java also accepts other Unicode decimal digits.
- UserRequests.ValidatePost: Hibernate's `@Email` also applies its own structural checks on top of the regular expression. Only the regular expression is modelled, so the set of rejected addresses may be smaller than Hibernate's.
- UserRequests.ValidatePut: the same `@Email` limitation as ValidatePost.
- `Text.Trim` and `@NotBlank`: Hibernate's `NotBlank` uses `trim()`, so characters up to U+0020 count as blank. Other Unicode whitespace is not blank, and the model agrees.
- Entity-graph fetching and lazy loading: these only change when data is loaded, not which rows come back.

## Findings

| source | as written | input that shows it | evidently intended | confidence | as-written member | corrected member |
|---|---|---|---|---|---|---|
| src/main/java/academy/devdojo/mapper/UserMapper.java:35 | the merged entity's id is mapped from `userToUpdate.roles`; a user built from a PUT body has null roles, so `update` saves an entity without an id, which inserts a new row and leaves the edited row unchanged (assuming the password encoder returns normally on the null raw password; if it rejects null, every such update fails instead) | table {1: leo@mail.com}, PUT {id 1, firstName "Leonardo", email leo@mail.com}: `update` succeeds, row 1 still has "Leo", and rows 1 and 2 both hold leo@mail.com | the merged id is `savedUser.id`, so the row is replaced in place and emails stay unique | not executed | UserService.UpdateOneUserCounterexample | UserService.UpdateIntended |

=== FILE: domain.dfy ===
/** The persisted entities of the user slice and the outcomes of its operations. */
module Domain {
  import opened Nullables

  /** A row of the users table. Every column is nullable in the entity class;
      `id` is assigned by the repository on first save. */
  datatype User = User(
    id: Nullable<int>,
    firstName: Nullable<string>,
    lastName: Nullable<string>,
    email: Nullable<string>,
    password: Nullable<string>,
    roles: Nullable<string>)

  datatype Profile = Profile(id: int, name: Nullable<string>, description: Nullable<string>)

  /** The association row linking one user and one profile. */
  datatype UserProfile = UserProfile(id: int, user: Nullable<User>, profile: Nullable<Profile>)

  /** The exceptions the service and the mapper raise. `NullId` is the
      repository's rejection of a null id; `NumberFormat` is the failure of
      `Long.parseLong` on the text it was given. */
  datatype Failure =
    | NotFound(message: string)
    | EmailAlreadyExists(message: string)
    | NullId
    | NumberFormat(input: string)

  datatype Result<+T> = Ok(value: T) | Err(failure: Failure)

  const UserNotFound: string := "User not found"

  /** The message of `EmailAlreadyExistsException` for the user found holding the address. */
  function EmailExistsMessage(email: Nullable<string>): (m: string)
    ensures email.Present? ==> m == "E-mail " + email.value + " already exists"
  {
    "E-mail " + Show(email) + " already exists"
  }
}

=== FILE: email_pattern.dfy ===
/** The address pattern both request bodies give to `@Email`:

      ^[\w-\.]+@([\w-]+\.)+[\w-]{2,4}$

    `\w` is the ASCII class `[A-Za-z0-9_]` (no UNICODE_CHARACTER_CLASS flag).
    The ghost predicates below follow the pattern's structure piece by piece;
    `MatchesEmailPattern` is a hand-written recognizer over characters, proved
    to accept exactly the strings the pattern matches. */
module EmailPattern {
  import opened Nullables
  import opened Text

  /** `\w` */
  predicate IsWordChar(c: char) { IsAsciiLetter(c) || IsAsciiDigit(c) || c == '_' }

  /** `[\w-]` */
  predicate IsLabelChar(c: char) { IsWordChar(c) || c == '-' }

  /** `[\w-\.]` */
  predicate IsLocalChar(c: char) { IsLabelChar(c) || c == '.' }

  predicate AllLocalChars(s: string) { forall i :: 0 <= i < |s| ==> IsLocalChar(s[i]) }
  predicate AllLabelChars(s: string) { forall i :: 0 <= i < |s| ==> IsLabelChar(s[i]) }

  // ---- The pattern, piece by piece ----

  /** `[\w-\.]+` */
  ghost predicate LocalPart(s: string) { |s| >= 1 && AllLocalChars(s) }

  /** `[\w-]+` */
  ghost predicate Label(s: string) { |s| >= 1 && AllLabelChars(s) }

  /** `[\w-]{2,4}` */
  ghost predicate TopLabel(s: string) { 2 <= |s| <= 4 && AllLabelChars(s) }

  /** `([\w-]+\.)+`: one label and a dot, then either the end or more of the same. */
  ghost predicate DottedLabels(s: string)
    decreases |s|
  {
    exists k :: 0 < k < |s| && s[k] == '.' && Label(s[..k]) && (k + 1 == |s| || DottedLabels(s[k + 1..]))
  }

  /** `([\w-]+\.)+[\w-]{2,4}` */
  ghost predicate Domain(s: string)
  {
    exists j :: 0 < j < |s| && DottedLabels(s[..j]) && TopLabel(s[j..])
  }

  /** The whole pattern, anchored at both ends. */
  ghost predicate Matches(s: string)
  {
    exists i :: 0 <= i < |s| && s[i] == '@' && LocalPart(s[..i]) && Domain(s[i + 1..])
  }

  // ---- The recognizer ----

  function IndexOf(s: string, c: char): (r: Nullable<nat>)
    ensures r.Present? ==> r.value < |s| && s[r.value] == c && forall i :: 0 <= i < r.value ==> s[i] != c
    ensures r.Null? ==> forall i :: 0 <= i < |s| ==> s[i] != c
  {
    if s == [] then Null
    else if s[0] == c then Present(0)
    else match IndexOf(s[1..], c)
      case Null => Null
      case Present(k) => Present(k + 1)
  }

  function LastIndexOf(s: string, c: char): (r: Nullable<nat>)
    ensures r.Present? ==> r.value < |s| && s[r.value] == c && forall i :: r.value < i < |s| ==> s[i] != c
    ensures r.Null? ==> forall i :: 0 <= i < |s| ==> s[i] != c
  {
    if s == [] then Null
    else if s[|s| - 1] == c then Present(|s| - 1)
    else LastIndexOf(s[..|s| - 1], c)
  }

  /** Labels separated and terminated by single dots: starts with a label
      character, ends with a dot, and never has two dots in a row. */
  predicate DotTerminatedLabels(p: string)
  {
    && |p| >= 2
    && IsLabelChar(p[0])
    && p[|p| - 1] == '.'
    && (forall i :: 0 <= i < |p| ==> IsLabelChar(p[i]) || p[i] == '.')
    && (forall i :: 0 <= i < |p| - 1 && p[i] == '.' ==> p[i + 1] != '.')
  }

  /** The domain after the `@`: everything up to and including the last dot
      is dot-terminated labels, and what follows is 2 to 4 label characters. */
  predicate DomainOk(d: string)
  {
    match LastIndexOf(d, '.')
    case Null => false
    case Present(j) =>
      && DotTerminatedLabels(d[..j + 1])
      && 2 <= |d| - (j + 1) <= 4
      && AllLabelChars(d[j + 1..])
  }

  /** The recognizer: split at the first `@` (the local part cannot contain
      one), check the local part, then the domain. */
  predicate MatchesEmailPattern(s: string)
  {
    match IndexOf(s, '@')
    case Null => false
    case Present(i) => 1 <= i && AllLocalChars(s[..i]) && DomainOk(s[i + 1..])
  }

  // ---- Agreement ----

  lemma {:induction false} DottedLabelsHaveShape(p: string)
    requires DottedLabels(p)
    ensures DotTerminatedLabels(p)
    decreases |p|
  {
    var k :| 0 < k < |p| && p[k] == '.' && Label(p[..k]) && (k + 1 == |p| || DottedLabels(p[k + 1..]));
    assert forall i :: 0 <= i < k ==> p[i] == p[..k][i];
    if k + 1 < |p| {
      var rest := p[k + 1..];
      DottedLabelsHaveShape(rest);
      assert forall i :: k + 1 <= i < |p| ==> p[i] == rest[i - (k + 1)];
      assert p[|p| - 1] == rest[|rest| - 1];
      assert p[k + 1] == rest[0];
    }
  }

  lemma {:induction false} ShapeIsDottedLabels(p: string)
    requires DotTerminatedLabels(p)
    ensures DottedLabels(p)
    decreases |p|
  {
    var k := IndexOf(p, '.').value;
    assert 0 < k;
    assert Label(p[..k]) by {
      assert forall i :: 0 <= i < k ==> p[..k][i] == p[i];
    }
    if k + 1 < |p| {
      var rest := p[k + 1..];
      assert forall i :: 0 <= i < |rest| ==> rest[i] == p[i + k + 1];
      assert DotTerminatedLabels(rest);
      ShapeIsDottedLabels(rest);
    }
    assert 0 < k < |p| && p[k] == '.' && Label(p[..k]) && (k + 1 == |p| || DottedLabels(p[k + 1..]));
  }

  /** The recursive piece of the pattern and the recognizer's shape test
      describe the same strings. */
  lemma DottedLabelsShape(p: string)
    ensures DottedLabels(p) <==> DotTerminatedLabels(p)
  {
    if DottedLabels(p) { DottedLabelsHaveShape(p); }
    if DotTerminatedLabels(p) { ShapeIsDottedLabels(p); }
  }

  lemma DomainOkIsDomain(d: string)
    ensures DomainOk(d) <==> Domain(d)
  {
    if DomainOk(d) {
      var j := LastIndexOf(d, '.').value;
      DottedLabelsShape(d[..j + 1]);
      assert 0 < j + 1 < |d| && DottedLabels(d[..j + 1]) && TopLabel(d[j + 1..]);
    }
    if Domain(d) {
      var w :| 0 < w < |d| && DottedLabels(d[..w]) && TopLabel(d[w..]);
      DottedLabelsShape(d[..w]);
      assert d[w - 1] == d[..w][w - 1] == '.';
      assert forall i :: w <= i < |d| ==> d[i] == d[w..][i - w] && d[i] != '.';
      var j := LastIndexOf(d, '.').value;
      assert j == w - 1;
    }
  }

  lemma RecognizedIsMatch(s: string)
    requires MatchesEmailPattern(s)
    ensures Matches(s)
  {
    var i := IndexOf(s, '@').value;
    DomainOkIsDomain(s[i + 1..]);
    assert LocalPart(s[..i]);
  }

  /** The `@` the pattern matches is the first one: the local part has none. */
  lemma MatchSplitsAtFirstAt(s: string, w: nat)
    requires w < |s| && s[w] == '@' && LocalPart(s[..w])
    ensures IndexOf(s, '@') == Present(w)
  {
    assert forall i :: 0 <= i < w ==> s[i] == s[..w][i];
  }

  lemma MatchIsRecognized(s: string)
    requires Matches(s)
    ensures MatchesEmailPattern(s)
  {
    var w :| 0 <= w < |s| && s[w] == '@' && LocalPart(s[..w]) && Domain(s[w + 1..]);
    MatchSplitsAtFirstAt(s, w);
    DomainOkIsDomain(s[w + 1..]);
  }

  /** The recognizer accepts exactly the strings the pattern matches. */
  lemma MatchesEmailPatternIsSound(s: string)
    ensures MatchesEmailPattern(s) <==> Matches(s)
  {
    if MatchesEmailPattern(s) { RecognizedIsMatch(s); }
    if Matches(s) { MatchIsRecognized(s); }
  }
}

=== FILE: java_long.dfy ===
/** Java's `Long.parseLong` and `Long.toString`, the conversion MapStruct
    inserts when a `String` property is mapped onto a `Long` one. Only ASCII
    digits are modelled. */
module JavaLong {
  import opened Nullables
  import opened Text

  const MinLong: int := -0x8000_0000_0000_0000
  const MaxLong: int := 0x7FFF_FFFF_FFFF_FFFF

  predicate AllDigits(s: string)
  {
    forall i :: 0 <= i < |s| ==> IsAsciiDigit(s[i])
  }

  function DigitValue(c: char): (d: nat)
    requires IsAsciiDigit(c)
    ensures d < 10
  {
    c as int - '0' as int
  }

  function DigitChar(d: nat): (c: char)
    requires d < 10
    ensures IsAsciiDigit(c) && DigitValue(c) == d
  {
    ('0' as int + d) as char
  }

  /** The number a string of decimal digits denotes, most significant first. */
  function DigitsValue(s: string): nat
    requires AllDigits(s)
  {
    if s == [] then 0 else DigitsValue(s[..|s| - 1]) * 10 + DigitValue(s[|s| - 1])
  }

  /** `Long.parseLong(s)`: an optional sign, at least one digit, and a value
      inside the 64-bit range; anything else is a `NumberFormatException`,
      modelled as `Null`. */
  function ParseLong(s: string): (r: Nullable<int>)
    ensures r.Present? ==> MinLong <= r.value <= MaxLong
    ensures r.Present? ==> |s| > 0
    ensures r.Present? && s[0] != '-' && s[0] != '+' ==> AllDigits(s) && r.value == DigitsValue(s)
    ensures r.Present? && (s[0] == '-' || s[0] == '+') ==> |s| > 1
    ensures r.Present? && s[0] == '-' ==> AllDigits(s[1..]) && r.value == -(DigitsValue(s[1..]) as int)
    ensures r.Present? && s[0] == '+' ==> AllDigits(s[1..]) && r.value == DigitsValue(s[1..]) as int
    ensures |s| > 0 && s[0] != '-' && s[0] != '+' && !AllDigits(s) ==> r.Null?
    ensures |s| > 0 && AllDigits(s) && DigitsValue(s) <= MaxLong ==> r == Present(DigitsValue(s) as int)
    ensures |s| > 1 && s[0] == '-' && AllDigits(s[1..]) && DigitsValue(s[1..]) <= -MinLong ==> r == Present(-(DigitsValue(s[1..]) as int))
    ensures |s| > 1 && s[0] == '+' && AllDigits(s[1..]) && DigitsValue(s[1..]) <= MaxLong ==> r == Present(DigitsValue(s[1..]) as int)
  {
    if |s| == 0 then Null
    else
      var negative := s[0] == '-';
      var digits := if s[0] == '-' || s[0] == '+' then s[1..] else s;
      if |digits| == 0 || !AllDigits(digits) then Null
      else
        var v := if negative then -(DigitsValue(digits) as int) else DigitsValue(digits) as int;
        if MinLong <= v <= MaxLong then Present(v) else Null
  }

  /** Decimal digits of a natural number, without leading zeros. */
  function NatToDigits(n: nat): (s: string)
    ensures |s| > 0 && AllDigits(s)
    decreases n
  {
    if n < 10 then [DigitChar(n)] else NatToDigits(n / 10) + [DigitChar(n % 10)]
  }

  /** `Long.toString(n)`. */
  function LongToString(n: int): (s: string)
    requires MinLong <= n <= MaxLong
    ensures |s| > 0
  {
    if n < 0 then "-" + NatToDigits(-n) else NatToDigits(n)
  }

  lemma {:induction false} DigitsRoundTrip(n: nat)
    ensures DigitsValue(NatToDigits(n)) == n
    decreases n
  {
    if n >= 10 {
      DigitsRoundTrip(n / 10);
      var s := NatToDigits(n);
      assert s[..|s| - 1] == NatToDigits(n / 10);
    }
  }

  /** Parsing what `Long.toString` prints gives the number back. */
  lemma ParseLongInvertsToString(n: int)
    requires MinLong <= n <= MaxLong
    ensures ParseLong(LongToString(n)) == Present(n)
  {
    var s := LongToString(n);
    if n < 0 {
      DigitsRoundTrip(-n);
      assert s[1..] == NatToDigits(-n);
    } else {
      DigitsRoundTrip(n);
      assert IsAsciiDigit(s[0]);
    }
  }

  /** The role text a user is created with is not a number. */
  lemma RoleTextIsNotALong()
    ensures ParseLong("USER") == Null
  {
    assert !IsAsciiDigit("USER"[0]);
  }
}

=== FILE: nullables.dfy ===
/** A Java reference that may be null. Every field of the request bodies and
    of the persisted entities can be null in the source, so the model keeps
    the distinction explicit instead of assuming it away. */
module Nullables {

  datatype Nullable<+T> = Null | Present(value: T)

  /** The text `String.format("%s", x)` produces for a nullable string. */
  function Show(x: Nullable<string>): (r: string)
    ensures x.Present? ==> r == x.value
    ensures x.Null? ==> r == "null"
  {
    match x
    case Null => "null"
    case Present(s) => s
  }
}

=== FILE: seqs.dfy ===
/** Order-preserving selections over sequences, shared by the repositories. */
module Seqs {
  import opened Nullables

  /** The elements of `xs` that satisfy `p`, in their original order. */
  function Filter<T(==)>(xs: seq<T>, p: T -> bool): (r: seq<T>)
    ensures |r| <= |xs|
    ensures forall i :: 0 <= i < |r| ==> r[i] in xs && p(r[i])
    ensures forall i :: 0 <= i < |xs| && p(xs[i]) ==> xs[i] in r
    ensures (forall i :: 0 <= i < |xs| ==> p(xs[i])) ==> r == xs
    ensures (forall i :: 0 <= i < |xs| ==> !p(xs[i])) ==> r == []
  {
    if xs == [] then []
    else
      var rest := Filter(xs[1..], p);
      if p(xs[0]) then [xs[0]] + rest else rest
  }

  /** Every earlier element stands in `before` to every later one. */
  ghost predicate InOrder<T>(xs: seq<T>, before: (T, T) -> bool)
  {
    forall i, j :: 0 <= i < j < |xs| ==> before(xs[i], xs[j])
  }

  /** Filtering keeps the relative order of what it keeps. */
  lemma {:induction false} FilterKeepsOrder<T>(xs: seq<T>, p: T -> bool, before: (T, T) -> bool)
    requires InOrder(xs, before)
    ensures InOrder(Filter(xs, p), before)
  {
    if xs != [] {
      var tail := xs[1..];
      assert InOrder(tail, before) by {
        forall i, j | 0 <= i < j < |tail|
          ensures before(tail[i], tail[j])
        {
          assert tail[i] == xs[i + 1] && tail[j] == xs[j + 1];
        }
      }
      FilterKeepsOrder(tail, p, before);
      if p(xs[0]) {
        assert forall m :: 0 <= m < |tail| ==> before(xs[0], tail[m]) by {
          forall m | 0 <= m < |tail|
            ensures before(xs[0], tail[m])
          {
            assert tail[m] == xs[m + 1];
          }
        }
        HeadBeforeFiltered(xs[0], tail, p, before);
        ConsInOrder(xs[0], Filter(tail, p), before);
      }
    }
  }

  /** What comes before every element comes before every kept element. */
  lemma HeadBeforeFiltered<T>(x: T, tail: seq<T>, p: T -> bool, before: (T, T) -> bool)
    requires forall m :: 0 <= m < |tail| ==> before(x, tail[m])
    ensures forall j :: 0 <= j < |Filter(tail, p)| ==> before(x, Filter(tail, p)[j])
  {
    var rest := Filter(tail, p);
    forall j | 0 <= j < |rest|
      ensures before(x, rest[j])
    {
      var m :| 0 <= m < |tail| && tail[m] == rest[j];
    }
  }

  lemma ConsInOrder<T>(x: T, rest: seq<T>, before: (T, T) -> bool)
    requires InOrder(rest, before)
    requires forall j :: 0 <= j < |rest| ==> before(x, rest[j])
    ensures InOrder([x] + rest, before)
  {
    var r := [x] + rest;
    forall i, j | 0 <= i < j < |r|
      ensures before(r[i], r[j])
    {
      assert r[j] == rest[j - 1];
      if i > 0 {
        assert r[i] == rest[i - 1];
      }
    }
  }

  /** Number of elements of `xs` that satisfy `p`. */
  function Count<T>(xs: seq<T>, p: T -> bool): (n: nat)
    ensures n <= |xs|
  {
    if xs == [] then 0 else (if p(xs[0]) then 1 else 0) + Count(xs[1..], p)
  }

  lemma {:induction false} FilterLengthIsCount<T>(xs: seq<T>, p: T -> bool)
    ensures |Filter(xs, p)| == Count(xs, p)
  {
    if xs != [] {
      FilterLengthIsCount(xs[1..], p);
    }
  }

  /** The first element of `xs` that satisfies `p`, or null when there is none. */
  function FirstWhere<T(==)>(xs: seq<T>, p: T -> bool): (r: Nullable<T>)
    ensures r.Present? <==> exists i :: 0 <= i < |xs| && p(xs[i])
    ensures r.Present? ==> r.value in xs && p(r.value)
  {
    if xs == [] then Null
    else if p(xs[0]) then Present(xs[0])
    else
      var r := FirstWhere(xs[1..], p);
      assert forall i :: 1 <= i < |xs| ==> xs[i] == xs[1..][i - 1];
      r
  }
}

=== FILE: text.dfy ===
/** Character classes and the two string comparisons the user slice relies on:
    the case-insensitive equality of the derived first-name query and the
    blank test of the `@NotBlank` constraint. Only ASCII is modelled. */
module Text {

  predicate IsAsciiUpper(c: char) { 'A' <= c <= 'Z' }
  predicate IsAsciiLower(c: char) { 'a' <= c <= 'z' }
  predicate IsAsciiLetter(c: char) { IsAsciiUpper(c) || IsAsciiLower(c) }
  predicate IsAsciiDigit(c: char) { '0' <= c <= '9' }

  /** The database's UPPER on one character, restricted to ASCII. */
  function ToUpper(c: char): (u: char)
    ensures IsAsciiLower(c) ==> IsAsciiUpper(u) && u as int + 32 == c as int
    ensures !IsAsciiLower(c) ==> u == c
  {
    if IsAsciiLower(c) then (c as int - 32) as char else c
  }

  function UpperCase(s: string): (r: string)
    ensures |r| == |s|
    ensures forall i :: 0 <= i < |s| ==> r[i] == ToUpper(s[i])
  {
    seq(|s|, i requires 0 <= i < |s| => ToUpper(s[i]))
  }

  /** Two characters that are equal, or are the upper- and lower-case forms
      of one ASCII letter. */
  predicate SameIgnoringCase(c: char, d: char)
  {
    || c == d
    || (IsAsciiLetter(c) && IsAsciiLetter(d) && (c as int - d as int == 32 || d as int - c as int == 32))
  }

  lemma ToUpperAgreesWithSameIgnoringCase(c: char, d: char)
    ensures ToUpper(c) == ToUpper(d) <==> SameIgnoringCase(c, d)
  {
  }

  /** `upper(a) = upper(b)`, the comparison Spring Data derives for an
      `IgnoreCase` query method. */
  predicate EqualsIgnoreCase(a: string, b: string)
  {
    UpperCase(a) == UpperCase(b)
  }

  /** The comparison holds exactly when the strings agree position by
      position up to the case of ASCII letters. */
  lemma EqualsIgnoreCaseCharwise(a: string, b: string)
    ensures EqualsIgnoreCase(a, b) <==>
              |a| == |b| && forall i :: 0 <= i < |a| ==> SameIgnoringCase(a[i], b[i])
  {
    if EqualsIgnoreCase(a, b) {
      forall i | 0 <= i < |a|
        ensures SameIgnoringCase(a[i], b[i])
      {
        assert UpperCase(a)[i] == UpperCase(b)[i];
        ToUpperAgreesWithSameIgnoringCase(a[i], b[i]);
      }
    }
    if |a| == |b| && forall i :: 0 <= i < |a| ==> SameIgnoringCase(a[i], b[i]) {
      forall i | 0 <= i < |a|
        ensures UpperCase(a)[i] == UpperCase(b)[i]
      {
        ToUpperAgreesWithSameIgnoringCase(a[i], b[i]);
      }
    }
  }

  lemma EqualsIgnoreCaseIsEquivalence(a: string, b: string, c: string)
    ensures EqualsIgnoreCase(a, a)
    ensures EqualsIgnoreCase(a, b) ==> EqualsIgnoreCase(b, a)
    ensures EqualsIgnoreCase(a, b) && EqualsIgnoreCase(b, c) ==> EqualsIgnoreCase(a, c)
  {
  }

  /** Java treats every character at or below U+0020 as trimmable. */
  predicate IsTrimmable(c: char) { c <= ' ' }

  /** Index of the first character at or after `st` that `String.trim`
      keeps: the first loop of `trim`. */
  function TrimStart(s: string, st: nat): (r: nat)
    requires st <= |s|
    ensures st <= r <= |s|
    ensures forall i :: st <= i < r ==> IsTrimmable(s[i])
    ensures r < |s| ==> !IsTrimmable(s[r])
    decreases |s| - st
  {
    if st < |s| && IsTrimmable(s[st]) then TrimStart(s, st + 1) else st
  }

  /** End (exclusive) of the kept range: the second loop of `trim`, which
      never moves below `st`. */
  function TrimEnd(s: string, st: nat, len: nat): (r: nat)
    requires st <= len <= |s|
    ensures st <= r <= len
    ensures forall i :: r <= i < len ==> IsTrimmable(s[i])
    ensures st < r ==> !IsTrimmable(s[r - 1])
    decreases len
  {
    if st < len && IsTrimmable(s[len - 1]) then TrimEnd(s, st, len - 1) else len
  }

  /** `String.trim`: drops the leading and trailing characters at or below
      U+0020 and keeps everything between them. */
  function Trim(s: string): (r: string)
    ensures |r| == 0 <==> forall i :: 0 <= i < |s| ==> IsTrimmable(s[i])
    ensures |r| > 0 ==> !IsTrimmable(r[0]) && !IsTrimmable(r[|r| - 1])
    ensures exists st, len :: 0 <= st <= len <= |s| && r == s[st..len]
  {
    var st := TrimStart(s, 0);
    var len := TrimEnd(s, st, |s|);
    s[st..len]
  }

  /** Hibernate Validator's `@NotBlank` on a non-null string: the trimmed
      text is not empty. */
  predicate HasText(s: string)
  {
    |Trim(s)| > 0
  }
}

=== FILE: user_mapper.dfy ===
/** `UserMapper`: the MapStruct conversions between the request and response
    shapes and the `User` entity. Password hashing is the injected encoder
    `encode` on non-null text; a null raw password is assumed to encode to
    null. */
module UserMapper {
  import opened Nullables
  import opened Domain
  import opened JavaLong
  import opened UserRequests

  /** The outward shape of a user: no password, no roles. */
  datatype UserGetResponse = UserGetResponse(
    id: Nullable<int>,
    firstName: Nullable<string>,
    lastName: Nullable<string>,
    email: Nullable<string>)

  const DefaultRole: string := "USER"

  /** The encoder applied to a raw password that may be null; null is
      assumed to stay null. */
  function EncodeNullable(raw: Nullable<string>, encode: string -> string): (r: Nullable<string>)
    ensures raw.Null? <==> r.Null?
    ensures raw.Present? ==> r.value == encode(raw.value)
  {
    match raw
    case Null => Null
    case Present(p) => Present(encode(p))
  }

  /** `toUser(UserPostRequest)`: a new user with the fixed role and the
      encoded password; no id yet. */
  function ToUserFromPost(req: UserPostRequest, encode: string -> string): (u: User)
    ensures u.id.Null?
    ensures u.roles == Present(DefaultRole)
    ensures u.firstName == req.firstName && u.lastName == req.lastName && u.email == req.email
    ensures req.password.Present? ==> u.password == Present(encode(req.password.value))
    ensures req.password.Null? ==> u.password.Null?
  {
    User(Null, req.firstName, req.lastName, req.email, EncodeNullable(req.password, encode), Present(DefaultRole))
  }

  /** `toUser(UserPutRequest)`: the body has neither password nor roles, so
      both stay null. */
  function ToUserFromPut(req: UserPutRequest): (u: User)
    ensures u.id == req.id
    ensures u.firstName == req.firstName && u.lastName == req.lastName && u.email == req.email
    ensures u.password.Null? && u.roles.Null?
  {
    User(req.id, req.firstName, req.lastName, req.email, Null, Null)
  }

  /** `toUserGetResponse(User)` */
  function ToUserGetResponse(u: User): (r: UserGetResponse)
    ensures r.id == u.id && r.firstName == u.firstName && r.lastName == u.lastName && r.email == u.email
  {
    UserGetResponse(u.id, u.firstName, u.lastName, u.email)
  }

  /** `toUserGetResponseList(List<User>)`: one response per user, in order. */
  function ToUserGetResponseList(us: seq<User>): (r: seq<UserGetResponse>)
    ensures |r| == |us|
    ensures forall i :: 0 <= i < |us| ==>
              r[i].id == us[i].id && r[i].firstName == us[i].firstName &&
              r[i].lastName == us[i].lastName && r[i].email == us[i].email
  {
    if us == [] then [] else [ToUserGetResponse(us[0])] + ToUserGetResponseList(us[1..])
  }

  /** The response does not depend on the password or the roles. */
  lemma ResponseHidesSecrets(u: User, password: Nullable<string>, roles: Nullable<string>)
    ensures ToUserGetResponse(u.(password := password, roles := roles)) == ToUserGetResponse(u)
  {
  }

  /** The id the merge takes from `userToUpdate.roles`: MapStruct converts
      the `String` with `Long.parseLong` when it is not null. */
  function RolesToId(roles: Nullable<string>): (r: Result<Nullable<int>>)
    ensures roles.Null? ==> r == Ok(Null)
    ensures roles.Present? && ParseLong(roles.value).Null? ==> r == Err(NumberFormat(roles.value))
    ensures roles.Present? && ParseLong(roles.value).Present? ==> r == Ok(ParseLong(roles.value))
  {
    match roles
    case Null => Ok(Null)
    case Present(text) =>
      match ParseLong(text)
      case Null => Err(NumberFormat(text))
      case Present(n) => Ok(Present(n))
  }

  /** `setPasswordIfNull` (the after-mapping hook): without a raw password the
      stored hash is kept. */
  function SetPasswordIfNull(user: User, rawPassword: Nullable<string>, savedUser: User): (r: User)
    ensures rawPassword.Null? ==> r == user.(password := savedUser.password)
    ensures rawPassword.Present? ==> r == user
  {
    if rawPassword.Null? then user.(password := savedUser.password) else user
  }

  /** What a merge must produce, apart from the id: names and email from the
      request, roles from the stored user, and a password that is the encoded
      raw password when one is given and the stored hash otherwise. */
  predicate MergedFrom(m: User, userToUpdate: User, rawPassword: Nullable<string>, savedUser: User, encode: string -> string)
  {
    && m.firstName == userToUpdate.firstName
    && m.lastName == userToUpdate.lastName
    && m.email == userToUpdate.email
    && m.roles == savedUser.roles
    && m.password == (if rawPassword.Present? then Present(encode(rawPassword.value)) else savedUser.password)
  }

  /** `toUserWithPasswordAndRoles` as written: the target id is mapped from
      `userToUpdate.roles`, so it is null when the roles are null, the parsed
      number when they are digits, and a `NumberFormatException` otherwise. */
  function ToUserWithPasswordAndRoles(userToUpdate: User, rawPassword: Nullable<string>, savedUser: User,
                                      encode: string -> string): (r: Result<User>)
    ensures r.Err? <==> RolesToId(userToUpdate.roles).Err?
    ensures r.Err? ==> r.failure == NumberFormat(userToUpdate.roles.value)
    ensures r.Ok? ==> MergedFrom(r.value, userToUpdate, rawPassword, savedUser, encode)
    ensures r.Ok? ==> r.value.id == RolesToId(userToUpdate.roles).value
    ensures userToUpdate.roles.Null? ==> r.Ok? && r.value.id.Null?
  {
    match RolesToId(userToUpdate.roles)
    case Err(f) => Err(f)
    case Ok(id) =>
      var mapped := User(id, userToUpdate.firstName, userToUpdate.lastName, userToUpdate.email,
                         EncodeNullable(rawPassword, encode), savedUser.roles);
      Ok(SetPasswordIfNull(mapped, rawPassword, savedUser))
  }

  /** The merge as evidently intended: the id, like the roles, comes from the
      stored user. */
  function ToUserWithPasswordAndRolesIntended(userToUpdate: User, rawPassword: Nullable<string>, savedUser: User,
                                              encode: string -> string): (r: User)
    ensures MergedFrom(r, userToUpdate, rawPassword, savedUser, encode)
    ensures r.id == savedUser.id
  {
    var mapped := User(savedUser.id, userToUpdate.firstName, userToUpdate.lastName, userToUpdate.email,
                       EncodeNullable(rawPassword, encode), savedUser.roles);
    SetPasswordIfNull(mapped, rawPassword, savedUser)
  }

  /** Every user that comes out of a PUT body merges to a user without an id. */
  lemma PutMergeLosesId(req: UserPutRequest, savedUser: User, encode: string -> string)
    ensures var r := ToUserWithPasswordAndRoles(ToUserFromPut(req), Null, savedUser, encode);
            r.Ok? && r.value.id.Null? && r.value.password == savedUser.password
  {
  }

  /** A user whose roles are the role text cannot be merged at all. */
  lemma RoleTextMergeFails(userToUpdate: User, rawPassword: Nullable<string>, savedUser: User, encode: string -> string)
    requires userToUpdate.roles == Present(DefaultRole)
    ensures ToUserWithPasswordAndRoles(userToUpdate, rawPassword, savedUser, encode) == Err(NumberFormat(DefaultRole))
  {
    RoleTextIsNotALong();
  }
}

=== FILE: user_profile_repository.dfy ===
/** The association table behind `UserProfileRepository`, as the sequence of
    its rows. A row's user and profile are references that may be missing;
    the three queries differ in how they join them. */
module UserProfileRepository {
  import opened Nullables
  import opened Seqs
  import opened Domain

  /** Both sides of the association are present, so an inner join keeps the row. */
  predicate Complete(link: UserProfile)
  {
    link.user.Present? && link.profile.Present?
  }

  /** The row belongs to profile `pid` and names a user. */
  predicate LinksProfile(link: UserProfile, pid: int)
  {
    Complete(link) && link.profile.value.id == pid
  }

  /** `retrieveAll()`: `join fetch` on user and profile is an inner join, so
      every row with both sides present, each with its user and profile. */
  function RetrieveAll(links: seq<UserProfile>): (r: seq<UserProfile>)
    ensures forall i :: 0 <= i < |r| ==> r[i] in links && Complete(r[i])
    ensures forall i :: 0 <= i < |links| && Complete(links[i]) ==> links[i] in r
    ensures |r| == Count(links, Complete)
  {
    FilterLengthIsCount(links, Complete);
    Filter(links, Complete)
  }

  /** `findAll()` under the `UserProfile.fullDetails` entity graph: the graph
      only decides what is fetched eagerly, so every row comes back. */
  function FindAll(links: seq<UserProfile>): (r: seq<UserProfile>)
    ensures |r| == |links|
    ensures forall i :: 0 <= i < |links| ==> r[i] == links[i]
  {
    links
  }

  /** On a table where every row has both sides, the two listings agree. */
  lemma RetrieveAllMatchesFindAll(links: seq<UserProfile>)
    requires forall i :: 0 <= i < |links| ==> Complete(links[i])
    ensures RetrieveAll(links) == FindAll(links)
  {
  }

  /** The row belongs to profile `pid` and names user `u`. */
  function LinksUserTo(pid: int, u: User): UserProfile -> bool
  {
    (l: UserProfile) => LinksProfile(l, pid) && l.user == Present(u)
  }

  /** Some row of `links` for profile `pid` names user `u`. */
  ghost predicate UserOfLinkTo(links: seq<UserProfile>, pid: int, u: User)
  {
    exists l :: l in links && LinksUserTo(pid, u)(l)
  }

  lemma UserOfLinkToTail(links: seq<UserProfile>, pid: int, u: User)
    requires links != [] && UserOfLinkTo(links[1..], pid, u)
    ensures UserOfLinkTo(links, pid, u)
  {
    var l :| l in links[1..] && LinksUserTo(pid, u)(l);
    assert l in links;
  }

  /** `findAllUserByProfileId(pid)`: `select up.user ... where
      up.profile.id = pid`, one user per matching row, in row order, so a user comes back as
      often as it is linked to the profile. */
  function FindAllUserByProfileId(links: seq<UserProfile>, pid: int): (r: seq<User>)
    ensures |r| == Count(links, l => LinksProfile(l, pid))
    ensures forall i :: 0 <= i < |r| ==> UserOfLinkTo(links, pid, r[i])
    ensures forall j :: 0 <= j < |links| && LinksProfile(links[j], pid) ==> links[j].user.value in r
    ensures forall u :: multiset(r)[u] == Count(links, LinksUserTo(pid, u))
  {
    if links == [] then []
    else
      var rest := FindAllUserByProfileId(links[1..], pid);
      assert forall j :: 1 <= j < |links| ==> links[j] == links[1..][j - 1];
      assert forall i :: 0 <= i < |rest| ==> UserOfLinkTo(links, pid, rest[i]) by {
        forall i | 0 <= i < |rest| { UserOfLinkToTail(links, pid, rest[i]); }
      }
      if LinksProfile(links[0], pid) then
        assert UserOfLinkTo(links, pid, links[0].user.value) by {
          assert links[0] in links && LinksUserTo(pid, links[0].user.value)(links[0]);
        }
        [links[0].user.value] + rest
      else rest
  }

  /** Two users linked to profile 1 give two users back, neither missing. */
  lemma TwoUsersOfOneProfile(a: User, b: User, p: Profile)
    requires p.id == 1
    ensures var links := [UserProfile(1, Present(a), Present(p)), UserProfile(2, Present(b), Present(p))];
            FindAllUserByProfileId(links, 1) == [a, b]
  {
  }
}

=== FILE: user_repository.dfy ===
/** The users table behind `UserRepository`: the inherited `findAll`,
    `findById`, `save` and `delete`, and the three derived queries. The
    database is a finite map from id to row plus the next value of the
    identity column. */
module UserRepository {
  import opened Nullables
  import opened Text
  import opened Seqs
  import opened Domain

  datatype Store = Store(rows: map<int, User>, nextId: int)

  /** Every row carries its own key as id, and every key lies below the next
      identity value, which is positive. */
  predicate Valid(s: Store)
  {
    && s.nextId >= 1
    && forall k :: k in s.rows ==> k < s.nextId && s.rows[k].id == Present(k)
  }

  /** No two rows hold the same email (null counts as a value, as the
      derived query compares it with `is null`). */
  predicate EmailsUnique(s: Store)
  {
    forall j, k :: j in s.rows && k in s.rows && s.rows[j].email == s.rows[k].email ==> j == k
  }

  /** The table before any row is stored. */
  const Empty: Store := Store(map[], 1)

  /** The empty table is well formed and holds no duplicate email, so the
      invariants every operation keeps hold from the start. */
  lemma EmptyIsValid()
    ensures Valid(Empty) && EmailsUnique(Empty)
    ensures |Empty.rows| == 0
  {
  }

  predicate IsLeast(m: int, ks: set<int>)
  {
    m in ks && forall k :: k in ks ==> m <= k
  }

  lemma NoElementMeansEmpty(ks: set<int>)
    requires forall k :: k !in ks
    ensures ks == {}
  {
    var e: set<int> := {};
    assert forall k :: k in ks <==> k in e;
    assert ks == e;
  }

  lemma NonEmptyHasElement(ks: set<int>)
    requires ks != {}
    ensures exists k :: k in ks
  {
    if forall k :: k !in ks {
      NoElementMeansEmpty(ks);
    }
  }

  lemma {:induction false} LeastExists(ks: set<int>)
    requires ks != {}
    ensures exists m :: IsLeast(m, ks)
    decreases |ks|
  {
    NonEmptyHasElement(ks);
    var x :| x in ks;
    var rest := ks - {x};
    if rest != {} {
      LeastExists(rest);
      var m :| IsLeast(m, rest);
      assert forall k :: k in ks ==> k == x || k in rest;
      if x < m {
        assert IsLeast(x, ks);
      } else {
        assert IsLeast(m, ks);
      }
    } else {
      assert forall k :: k in ks ==> k == x || k in rest;
      assert IsLeast(x, ks);
    }
  }

  /** The keys in ascending order. */
  function SortedIds(ks: set<int>): (r: seq<int>)
    ensures |r| == |ks|
    ensures forall k :: k in ks <==> k in r
    ensures forall i, j :: 0 <= i < j < |r| ==> r[i] < r[j]
    decreases |ks|
  {
    if ks == {} then []
    else
      LeastExists(ks);
      var m :| IsLeast(m, ks);
      [m] + SortedIds(ks - {m})
  }

  /** `findAll()`: every row, once, in ascending id order (the source leaves
      the order to the database). */
  function FindAll(s: Store): (r: seq<User>)
    requires Valid(s)
    ensures |r| == |s.rows|
    ensures forall i :: 0 <= i < |r| ==> r[i].id.Present? && r[i].id.value in s.rows && s.rows[r[i].id.value] == r[i]
    ensures forall k :: k in s.rows ==> s.rows[k] in r
    ensures forall i, j :: 0 <= i < j < |r| ==> r[i].id.value < r[j].id.value
  {
    var ids := SortedIds(s.rows.Keys);
    assert forall i :: 0 <= i < |ids| ==> ids[i] in s.rows.Keys;
    var r := RowsAt(s, ids);
    ListingInIdOrder(s, ids, r);
    r
  }

  /** The rows under the given keys, in the keys' order. */
  function RowsAt(s: Store, ids: seq<int>): (r: seq<User>)
    requires forall i :: 0 <= i < |ids| ==> ids[i] in s.rows
    ensures |r| == |ids|
    ensures forall i :: 0 <= i < |ids| ==> r[i] == s.rows[ids[i]]
  {
    if ids == [] then [] else [s.rows[ids[0]]] + RowsAt(s, ids[1..])
  }

  lemma ListingInIdOrder(s: Store, ids: seq<int>, r: seq<User>)
    requires Valid(s)
    requires |ids| == |s.rows.Keys|
    requires forall k :: k in s.rows.Keys <==> k in ids
    requires forall i, j :: 0 <= i < j < |ids| ==> ids[i] < ids[j]
    requires |r| == |ids|
    requires forall i :: 0 <= i < |ids| ==> ids[i] in s.rows && r[i] == s.rows[ids[i]]
    ensures |r| == |s.rows|
    ensures forall i :: 0 <= i < |r| ==> r[i].id.Present? && r[i].id.value in s.rows && s.rows[r[i].id.value] == r[i]
    ensures forall k :: k in s.rows ==> s.rows[k] in r
    ensures forall i, j :: 0 <= i < j < |r| ==> r[i].id.value < r[j].id.value
  {
    assert |s.rows| == |s.rows.Keys|;
    assert forall i :: 0 <= i < |r| ==> r[i].id == Present(ids[i]);
    forall k | k in s.rows
      ensures s.rows[k] in r
    {
      var i :| 0 <= i < |ids| && ids[i] == k;
      assert r[i] == s.rows[k];
    }
  }

  /** `findById(id)`. */
  function FindById(s: Store, id: int): (r: Nullable<User>)
    ensures r.Present? <==> id in s.rows
    ensures r.Present? ==> r.value == s.rows[id]
  {
    if id in s.rows then Present(s.rows[id]) else Null
  }

  predicate FirstNameIs(u: User, name: string)
  {
    u.firstName.Present? && EqualsIgnoreCase(u.firstName.value, name)
  }

  /** Ids present and strictly ascending. */
  predicate IdBefore(a: User, b: User)
  {
    a.id.Present? && b.id.Present? && a.id.value < b.id.value
  }

  /** The filter behind the first-name query. */
  function NameMatcher(name: string): User -> bool
  {
    u => FirstNameIs(u, name)
  }

  /** `all` lists exactly the stored rows: each entry is the row stored
      under its own id, and every stored row is an entry. */
  predicate ListsRows(s: Store, all: seq<User>)
  {
    && (forall i :: 0 <= i < |all| ==> all[i].id.Present? && all[i].id.value in s.rows && s.rows[all[i].id.value] == all[i])
    && (forall k :: k in s.rows ==> s.rows[k] in all)
  }

  /** `findByFirstNameIgnoreCase(name)`: the rows whose first name equals
      `name` up to ASCII case, in id order; none when no row matches. */
  function FindByFirstNameIgnoreCase(s: Store, name: string): (r: seq<User>)
    requires Valid(s)
    ensures forall i :: 0 <= i < |r| ==> r[i] in s.rows.Values && FirstNameIs(r[i], name)
    ensures forall k :: k in s.rows && FirstNameIs(s.rows[k], name) ==> s.rows[k] in r
    ensures InOrder(r, IdBefore)
    ensures (forall k :: k in s.rows ==> !FirstNameIs(s.rows[k], name)) ==> r == []
  {
    var all := FindAll(s);
    NameQueryOverListing(s, all, name);
    Filter(all, NameMatcher(name))
  }

  /** What the name query keeps from a listing in id order. */
  lemma NameQueryOverListing(s: Store, all: seq<User>, name: string)
    requires ListsRows(s, all)
    requires forall i, j :: 0 <= i < j < |all| ==> all[i].id.value < all[j].id.value
    ensures var r := Filter(all, NameMatcher(name));
      && (forall i :: 0 <= i < |r| ==> r[i] in s.rows.Values && FirstNameIs(r[i], name))
      && (forall k :: k in s.rows && FirstNameIs(s.rows[k], name) ==> s.rows[k] in r)
      && InOrder(r, IdBefore)
      && ((forall k :: k in s.rows ==> !FirstNameIs(s.rows[k], name)) ==> r == [])
  {
    assert InOrder(all, IdBefore);
    FilterKeepsOrder(all, NameMatcher(name), IdBefore);
    FilterListsMatches(s, all, NameMatcher(name));
  }

  /** Filtering a listing keeps exactly the stored rows that pass the
      filter, and nothing when no stored row passes. */
  lemma FilterListsMatches(s: Store, all: seq<User>, p: User -> bool)
    requires ListsRows(s, all)
    ensures var r := Filter(all, p);
      && (forall i :: 0 <= i < |r| ==> r[i] in s.rows.Values && p(r[i]))
      && (forall k :: k in s.rows && p(s.rows[k]) ==> s.rows[k] in r)
      && ((forall k :: k in s.rows ==> !p(s.rows[k])) ==> r == [])
  {
    var r := Filter(all, p);
    forall i | 0 <= i < |r|
      ensures r[i] in s.rows.Values
    {
      var j :| 0 <= j < |all| && all[j] == r[i];
      assert s.rows[all[j].id.value] == r[i];
    }
    forall k | k in s.rows && p(s.rows[k])
      ensures s.rows[k] in r
    {
      var j :| 0 <= j < |all| && all[j] == s.rows[k];
      assert p(all[j]);
    }
    if forall k :: k in s.rows ==> !p(s.rows[k]) {
      forall i | 0 <= i < |all|
        ensures !p(all[i])
      {
        assert s.rows[all[i].id.value] == all[i];
      }
    }
  }

  /** The filter behind the email query. */
  function EmailMatcher(email: Nullable<string>): User -> bool
  {
    (u: User) => u.email == email
  }

  /** The filter behind the email query that skips one id. */
  function OtherEmailMatcher(email: Nullable<string>, id: int): User -> bool
  {
    (u: User) => u.email == email && u.id != Present(id)
  }

  /** `findByEmail(email)`: a row holding exactly that email, if any. */
  function FindByEmail(s: Store, email: Nullable<string>): (r: Nullable<User>)
    requires Valid(s)
    ensures r.Present? <==> exists k :: k in s.rows && s.rows[k].email == email
    ensures r.Present? ==> r.value in s.rows.Values && r.value.email == email
  {
    var all := FindAll(s);
    assert ListsRows(s, all);
    FirstListedMatch(s, all, EmailMatcher(email));
    FirstWhere(all, EmailMatcher(email))
  }

  /** `findByEmailAndIdNot(email, id)`: a row holding the email whose id is
      not `id`, if any. */
  function FindByEmailAndIdNot(s: Store, email: Nullable<string>, id: int): (r: Nullable<User>)
    requires Valid(s)
    ensures r.Present? <==> exists k :: k in s.rows && k != id && s.rows[k].email == email
    ensures r.Present? ==> r.value in s.rows.Values && r.value.email == email && r.value.id != Present(id)
  {
    var all := FindAll(s);
    assert ListsRows(s, all);
    FirstListedMatch(s, all, OtherEmailMatcher(email, id));
    FirstWhere(all, OtherEmailMatcher(email, id))
  }

  /** Searching a listing finds a row exactly when some stored row passes
      the filter, and then finds a stored one. */
  lemma FirstListedMatch(s: Store, all: seq<User>, p: User -> bool)
    requires Valid(s) && ListsRows(s, all)
    ensures var r := FirstWhere(all, p);
      && (r.Present? <==> exists k :: k in s.rows && p(s.rows[k]))
      && (r.Present? ==> r.value in s.rows.Values && p(r.value))
  {
    var r := FirstWhere(all, p);
    if r.Present? {
      var i :| 0 <= i < |all| && all[i] == r.value;
      var k := all[i].id.value;
      assert k in s.rows && s.rows[k] == r.value;
    }
    if exists k :: k in s.rows && p(s.rows[k]) {
      var k :| k in s.rows && p(s.rows[k]);
      var i :| 0 <= i < |all| && all[i] == s.rows[k];
      assert p(all[i]);
    }
  }

  /** `save(user)`: a user without an id is inserted under the next identity
      value, which is positive and unused; a user with an id replaces the row
      with that key. The saved entity is returned with its id. */
  function Save(s: Store, u: User): (r: (User, Store))
    requires Valid(s)
    ensures var (saved, s') := r;
      && Valid(s')
      && saved == u.(id := saved.id)
      && saved.id.Present?
      && s'.rows == s.rows[saved.id.value := saved]
      && (u.id.Null? ==> saved.id == Present(s.nextId) && s.nextId >= 1 && s.nextId !in s.rows)
      && (u.id.Present? ==> saved == u)
  {
    match u.id
    case Null =>
      var id := s.nextId;
      var saved := u.(id := Present(id));
      (saved, Store(s.rows[id := saved], id + 1))
    case Present(id) =>
      (u, Store(s.rows[id := u], if id < s.nextId then s.nextId else id + 1))
  }

  /** `delete(user)`: removes the row with the user's id. */
  function Delete(s: Store, id: int): (s': Store)
    requires Valid(s)
    ensures Valid(s')
    ensures s'.rows.Keys == s.rows.Keys - {id}
    ensures forall k :: k in s'.rows ==> s'.rows[k] == s.rows[k]
    ensures s'.nextId == s.nextId
  {
    Store(s.rows - {id}, s.nextId)
  }
}

=== FILE: user_requests.dfy ===
/** The POST and PUT bodies of `/v1/users` and the Bean Validation
    constraints on their fields. Validation yields the set of violated
    constraint messages; an empty set means the body is accepted. */
module UserRequests {
  import opened Nullables
  import opened Text
  import opened EmailPattern

  datatype UserPostRequest = UserPostRequest(
    firstName: Nullable<string>,
    lastName: Nullable<string>,
    email: Nullable<string>,
    password: Nullable<string>)

  /** The PUT body has no password and no roles. */
  datatype UserPutRequest = UserPutRequest(
    id: Nullable<int>,
    firstName: Nullable<string>,
    lastName: Nullable<string>,
    email: Nullable<string>)

  const FirstNameRequired: string := "The field 'firstName' is required"
  const LastNameRequired: string := "The field 'lastName' is required"
  const EmailRequired: string := "The field 'email' is required"
  const EmailNotValid: string := "Email is not valid"
  const PasswordRequired: string := "The field 'password' is required"
  const IdRequired: string := "The field 'id' cannot be null"

  lemma MessagesDistinct()
    ensures FirstNameRequired != LastNameRequired && FirstNameRequired != EmailRequired
    ensures FirstNameRequired != EmailNotValid && FirstNameRequired != PasswordRequired
    ensures FirstNameRequired != IdRequired
    ensures LastNameRequired != EmailRequired && LastNameRequired != EmailNotValid
    ensures LastNameRequired != PasswordRequired && LastNameRequired != IdRequired
    ensures EmailRequired != EmailNotValid && EmailRequired != PasswordRequired && EmailRequired != IdRequired
    ensures EmailNotValid != PasswordRequired && EmailNotValid != IdRequired
    ensures PasswordRequired != IdRequired
  {
    assert |FirstNameRequired| == 33 && |EmailNotValid| == 18;
    assert |LastNameRequired| == |PasswordRequired| == 32 && LastNameRequired[11] != PasswordRequired[11];
    assert |EmailRequired| == |IdRequired| == 29 && EmailRequired[11] != IdRequired[11];
  }

  /** No character above U+0020: what `String.trim` reduces to nothing. */
  ghost predicate Blank(s: string)
  {
    forall i :: 0 <= i < |s| ==> s[i] <= ' '
  }

  /** `@NotBlank`: not null, and not empty after trimming. */
  predicate NotBlank(s: Nullable<string>)
  {
    s.Present? && HasText(s.value)
  }

  lemma NotBlankMeansVisible(s: Nullable<string>)
    ensures NotBlank(s) <==> !(s.Null? || Blank(s.value))
  {
  }

  /** `@Email(regexp = ...)`: null and the empty string pass; anything else
      must match the address pattern. */
  predicate EmailFormatOk(s: Nullable<string>)
  {
    s.Null? || |s.value| == 0 || MatchesEmailPattern(s.value)
  }

  lemma EmailFormatOkMeansMatch(s: Nullable<string>)
    ensures EmailFormatOk(s) <==> s.Null? || |s.value| == 0 || Matches(s.value)
  {
    if s.Present? { MatchesEmailPatternIsSound(s.value); }
  }

  function Violation(ok: bool, message: string): (v: set<string>)
    ensures v == {} <==> ok
    ensures v <= {message}
  {
    if ok then {} else {message}
  }

  /** The constraints on `firstName` and `lastName`, shared by both bodies. */
  function NameViolations(firstName: Nullable<string>, lastName: Nullable<string>): (v: set<string>)
    ensures FirstNameRequired in v <==> firstName.Null? || Blank(firstName.value)
    ensures LastNameRequired in v <==> lastName.Null? || Blank(lastName.value)
    ensures v <= {FirstNameRequired, LastNameRequired}
  {
    NotBlankMeansVisible(firstName);
    NotBlankMeansVisible(lastName);
    MessagesDistinct();
    Violation(NotBlank(firstName), FirstNameRequired) + Violation(NotBlank(lastName), LastNameRequired)
  }

  /** The constraints on `email`, shared by both bodies. */
  function EmailViolations(email: Nullable<string>): (v: set<string>)
    ensures EmailRequired in v <==> email.Null? || Blank(email.value)
    ensures EmailNotValid in v <==> email.Present? && |email.value| > 0 && !Matches(email.value)
    ensures v <= {EmailRequired, EmailNotValid}
  {
    NotBlankMeansVisible(email);
    EmailFormatOkMeansMatch(email);
    MessagesDistinct();
    Violation(NotBlank(email), EmailRequired) + Violation(EmailFormatOk(email), EmailNotValid)
  }

  /** The constraints on the names and the email, shared by both bodies. */
  function PersonViolations(firstName: Nullable<string>, lastName: Nullable<string>, email: Nullable<string>): (v: set<string>)
    ensures FirstNameRequired in v <==> firstName.Null? || Blank(firstName.value)
    ensures LastNameRequired in v <==> lastName.Null? || Blank(lastName.value)
    ensures EmailRequired in v <==> email.Null? || Blank(email.value)
    ensures EmailNotValid in v <==> email.Present? && |email.value| > 0 && !Matches(email.value)
    ensures v <= {FirstNameRequired, LastNameRequired, EmailRequired, EmailNotValid}
  {
    MessagesDistinct();
    NameViolations(firstName, lastName) + EmailViolations(email)
  }

  /** The violated constraints of a POST body. */
  function ValidatePost(r: UserPostRequest): (v: set<string>)
    ensures FirstNameRequired in v <==> r.firstName.Null? || Blank(r.firstName.value)
    ensures LastNameRequired in v <==> r.lastName.Null? || Blank(r.lastName.value)
    ensures EmailRequired in v <==> r.email.Null? || Blank(r.email.value)
    ensures EmailNotValid in v <==> r.email.Present? && |r.email.value| > 0 && !Matches(r.email.value)
    ensures PasswordRequired in v <==> r.password.Null? || Blank(r.password.value)
    ensures v <= {FirstNameRequired, LastNameRequired, EmailRequired, EmailNotValid, PasswordRequired}
  {
    NotBlankMeansVisible(r.password);
    MessagesDistinct();
    PersonViolations(r.firstName, r.lastName, r.email) + Violation(NotBlank(r.password), PasswordRequired)
  }

  /** The violated constraints of a PUT body. */
  function ValidatePut(r: UserPutRequest): (v: set<string>)
    ensures IdRequired in v <==> r.id.Null?
    ensures FirstNameRequired in v <==> r.firstName.Null? || Blank(r.firstName.value)
    ensures LastNameRequired in v <==> r.lastName.Null? || Blank(r.lastName.value)
    ensures EmailRequired in v <==> r.email.Null? || Blank(r.email.value)
    ensures EmailNotValid in v <==> r.email.Present? && |r.email.value| > 0 && !Matches(r.email.value)
    ensures v <= {IdRequired, FirstNameRequired, LastNameRequired, EmailRequired, EmailNotValid}
  {
    MessagesDistinct();
    Violation(r.id.Present?, IdRequired) + PersonViolations(r.firstName, r.lastName, r.email)
  }

  /** Present, with a character above U+0020 somewhere. */
  ghost predicate HasVisibleChar(s: Nullable<string>)
  {
    s.Present? && !Blank(s.value)
  }

  /** An accepted POST body has every field present with a visible
      character, and an address the pattern matches. */
  lemma AcceptedPostIsWellFormed(r: UserPostRequest)
    ensures ValidatePost(r) == {} ==>
      && HasVisibleChar(r.firstName) && HasVisibleChar(r.lastName) && HasVisibleChar(r.password)
      && HasVisibleChar(r.email) && Matches(r.email.value)
  {
    var v := ValidatePost(r);
    if v == {} {
      assert FirstNameRequired !in v && LastNameRequired !in v && PasswordRequired !in v;
      assert EmailRequired !in v && EmailNotValid !in v;
    }
  }

  /** An accepted PUT body names an id, has every text field present with a
      visible character, and an address the pattern matches. */
  lemma AcceptedPutIsWellFormed(r: UserPutRequest)
    ensures ValidatePut(r) == {} ==>
      && r.id.Present?
      && HasVisibleChar(r.firstName) && HasVisibleChar(r.lastName)
      && HasVisibleChar(r.email) && Matches(r.email.value)
  {
    var v := ValidatePut(r);
    if v == {} {
      assert IdRequired !in v && FirstNameRequired !in v && LastNameRequired !in v;
      assert EmailRequired !in v && EmailNotValid !in v;
    }
  }
}

=== FILE: user_service.dfy ===
/** `UserService`: the rules that guard the users table. Each operation
    takes the table and returns its outcome together with the table
    afterwards; a failed check leaves the table as it was. Operations run one
    at a time. */
module UserService {
  import opened Nullables
  import opened Seqs
  import opened Domain
  import opened JavaLong
  import opened UserMapper
  import UserRequests
  import Repo = UserRepository

  type Store = Repo.Store

  /** Some row other than `id` holds `email`. */
  predicate EmailHeldByOther(s: Store, email: Nullable<string>, id: int)
  {
    exists k :: k in s.rows && k != id && s.rows[k].email == email
  }

  /** Some row holds `email`. */
  predicate EmailHeld(s: Store, email: Nullable<string>)
  {
    exists k :: k in s.rows && s.rows[k].email == email
  }

  /** `findAll(firstName)`: every user when no name is given, otherwise the
      users whose first name equals it up to case. */
  function FindAll(s: Store, firstName: Nullable<string>): (r: seq<User>)
    requires Repo.Valid(s)
    ensures firstName.Null? ==> |r| == |s.rows| && forall k :: k in s.rows ==> s.rows[k] in r
    ensures forall i :: 0 <= i < |r| ==> r[i] in s.rows.Values
    ensures InOrder(r, Repo.IdBefore)
    ensures firstName.Present? ==> forall i :: 0 <= i < |r| ==> Repo.FirstNameIs(r[i], firstName.value)
    ensures firstName.Present? ==> forall k :: k in s.rows && Repo.FirstNameIs(s.rows[k], firstName.value) ==> s.rows[k] in r
    ensures firstName.Present? && (forall k :: k in s.rows ==> !Repo.FirstNameIs(s.rows[k], firstName.value)) ==> r == []
  {
    match firstName
    case Null =>
      var all := Repo.FindAll(s);
      assert InOrder(all, Repo.IdBefore);
      all
    case Present(name) => Repo.FindByFirstNameIgnoreCase(s, name)
  }

  /** Searching by a stored user's own first name finds that user. */
  lemma FindAllByOwnNameFindsUser(s: Store, k: int)
    requires Repo.Valid(s)
    requires k in s.rows && s.rows[k].firstName.Present?
    ensures s.rows[k] in FindAll(s, s.rows[k].firstName)
  {
    Text.EqualsIgnoreCaseIsEquivalence(s.rows[k].firstName.value, s.rows[k].firstName.value, s.rows[k].firstName.value);
  }

  /** `findByIdOrThrowNotFound(id)` */
  function FindByIdOrThrowNotFound(s: Store, id: int): (r: Result<User>)
    ensures id in s.rows ==> r == Ok(s.rows[id])
    ensures id !in s.rows ==> r == Err(NotFound(UserNotFound))
  {
    match Repo.FindById(s, id)
    case Null => Err(NotFound(UserNotFound))
    case Present(u) => Ok(u)
  }

  /** `assertUserExists(id)` */
  function AssertUserExists(s: Store, id: int): (r: Result<()>)
    ensures r.Ok? <==> id in s.rows
    ensures r.Err? ==> r.failure == NotFound(UserNotFound)
  {
    match FindByIdOrThrowNotFound(s, id)
    case Err(f) => Err(f)
    case Ok(_) => Ok(())
  }

  /** `assertEmailDoesNoExist(email)`: fails when any row holds the email. */
  function AssertEmailDoesNotExist(s: Store, email: Nullable<string>): (r: Result<()>)
    requires Repo.Valid(s)
    ensures r.Ok? <==> !EmailHeld(s, email)
    ensures r.Err? ==> r.failure == EmailAlreadyExists(EmailExistsMessage(email))
  {
    match Repo.FindByEmail(s, email)
    case Null => Ok(())
    case Present(holder) => Err(EmailAlreadyExists(EmailExistsMessage(holder.email)))
  }

  /** `assertEmailDoesNoExist(email, id)`: fails only when a row with another
      id holds the email. */
  function AssertEmailDoesNotExistForOther(s: Store, email: Nullable<string>, id: int): (r: Result<()>)
    requires Repo.Valid(s)
    ensures r.Ok? <==> !EmailHeldByOther(s, email, id)
    ensures r.Err? ==> r.failure == EmailAlreadyExists(EmailExistsMessage(email))
  {
    match Repo.FindByEmailAndIdNot(s, email, id)
    case Null => Ok(())
    case Present(holder) => Err(EmailAlreadyExists(EmailExistsMessage(holder.email)))
  }

  /** `save(user)`: refused when the email is taken; otherwise the user is
      stored (under a fresh positive id when it has none) and returned. */
  function Save(s: Store, u: User): (r: (Result<User>, Store))
    requires Repo.Valid(s)
    ensures Repo.Valid(r.1)
    ensures r.0.Err? <==> EmailHeld(s, u.email)
    ensures r.0.Err? ==> r.0.failure == EmailAlreadyExists(EmailExistsMessage(u.email)) && r.1 == s
    ensures r.0.Ok? ==> var saved := r.0.value;
      && saved == u.(id := saved.id)
      && saved.id.Present? && saved.id.value in r.1.rows && r.1.rows[saved.id.value] == saved
      && (u.id.Null? ==> saved.id.value >= 1 && saved.id.value !in s.rows)
      && (u.id.Present? ==> saved.id == u.id)
      && r.1.rows.Keys == s.rows.Keys + {saved.id.value}
      && forall k :: k in s.rows && k != saved.id.value ==> r.1.rows[k] == s.rows[k]
  {
    match AssertEmailDoesNotExist(s, u.email)
    case Err(f) => (Err(f), s)
    case Ok(_) =>
      var (saved, s') := Repo.Save(s, u);
      (Ok(saved), s')
  }

  /** Writing one row whose email no other row holds keeps the emails of
      the table pairwise distinct. */
  lemma WriteKeepsEmailsUnique(s: Store, s': Store, id: int)
    requires Repo.EmailsUnique(s)
    requires id in s'.rows
    requires forall j :: j in s'.rows && j != id ==>
               j in s.rows && s'.rows[j] == s.rows[j] && s.rows[j].email != s'.rows[id].email
    ensures Repo.EmailsUnique(s')
  {
    forall j, k | j in s'.rows && k in s'.rows && s'.rows[j].email == s'.rows[k].email
      ensures j == k
    {
      if j != id && k != id {
        assert s.rows[j].email == s.rows[k].email;
      }
    }
  }

  /** A successful save keeps the emails of the table pairwise distinct. */
  lemma SaveKeepsEmailsUnique(s: Store, u: User)
    requires Repo.Valid(s) && Repo.EmailsUnique(s)
    requires Save(s, u).0.Ok?
    ensures Repo.EmailsUnique(Save(s, u).1)
  {
    var (r, s') := Save(s, u);
    var id := r.value.id.value;
    assert s'.rows[id].email == u.email;
    assert !EmailHeld(s, u.email);
    WriteKeepsEmailsUnique(s, s', id);
  }

  /** `delete(id)`: refused for an unknown id; otherwise exactly that row
      goes. */
  function Delete(s: Store, id: int): (r: (Result<()>, Store))
    requires Repo.Valid(s)
    ensures Repo.Valid(r.1)
    ensures r.0.Ok? <==> id in s.rows
    ensures r.0.Err? ==> r.0.failure == NotFound(UserNotFound) && r.1 == s
    ensures r.0.Ok? ==> r.1.rows.Keys == s.rows.Keys - {id}
    ensures forall k :: k in r.1.rows ==> r.1.rows[k] == s.rows[k]
  {
    match FindByIdOrThrowNotFound(s, id)
    case Err(f) => (Err(f), s)
    case Ok(user) => (Ok(()), Repo.Delete(s, user.id.value))
  }

  /** `s'` has the keys of `s` and `k`; it holds, under `k`, the merge of
      `u` into `savedUser`, and every other row of `s` unchanged. */
  predicate WroteMergeAt(s: Store, s': Store, k: int, u: User, savedUser: User, encode: string -> string)
  {
    && s'.rows.Keys == s.rows.Keys + {k}
    && MergedFrom(s'.rows[k], u, u.password, savedUser, encode)
    && forall j :: j in s.rows && j != k ==> s'.rows[j] == s.rows[j]
  }

  /** Saving a merged user writes it under the key its id names, or under
      the next identity value when it has none. */
  lemma SaveWritesMerge(s: Store, u: User, savedUser: User, merged: User, encode: string -> string)
    requires Repo.Valid(s)
    requires MergedFrom(merged, u, u.password, savedUser, encode)
    ensures merged.id.Null? ==> s.nextId !in s.rows && WroteMergeAt(s, Repo.Save(s, merged).1, s.nextId, u, savedUser, encode)
    ensures merged.id.Present? ==> WroteMergeAt(s, Repo.Save(s, merged).1, merged.id.value, u, savedUser, encode)
  {
    var (saved, s') := Repo.Save(s, merged);
    assert MergedFrom(saved, u, u.password, savedUser, encode);
  }

  /** The part of `update` after the user was found: the email check
      against the other rows, the merge, and the save. */
  function UpdateFound(s: Store, u: User, id: int, encode: string -> string): (r: (Result<()>, Store))
    requires Repo.Valid(s)
    requires u.id == Present(id) && id in s.rows
    ensures Repo.Valid(r.1)
    ensures r.0.Err? ==> r.1 == s
    ensures (r.0.Err? && r.0.failure.EmailAlreadyExists?) <==> EmailHeldByOther(s, u.email, id)
    ensures (r.0.Err? && r.0.failure.NumberFormat?) <==> !EmailHeldByOther(s, u.email, id) && RolesToId(u.roles).Err?
    ensures r.0.Ok? <==> !EmailHeldByOther(s, u.email, id) && RolesToId(u.roles).Ok?
    ensures r.0.Err? && r.0.failure.EmailAlreadyExists? ==> r.0.failure == EmailAlreadyExists(EmailExistsMessage(u.email))
    ensures r.0.Err? && r.0.failure.NumberFormat? ==> r.0.failure == NumberFormat(u.roles.value)
    ensures r.0.Ok? && u.roles.Null? ==>
              s.nextId !in s.rows && WroteMergeAt(s, r.1, s.nextId, u, s.rows[id], encode)
    ensures r.0.Ok? && u.roles.Present? ==>
              ParseLong(u.roles.value).Present? && WroteMergeAt(s, r.1, ParseLong(u.roles.value).value, u, s.rows[id], encode)
  {
    match AssertEmailDoesNotExistForOther(s, u.email, id)
    case Err(f) => (Err(f), s)
    case Ok(_) =>
      match ToUserWithPasswordAndRoles(u, u.password, s.rows[id], encode)
      case Err(f) => (Err(f), s)
      case Ok(merged) =>
        SaveWritesMerge(s, u, s.rows[id], merged, encode);
        (Ok(()), Repo.Save(s, merged).1)
  }

  /** `update(userToUpdate)` as written: look the user up, check the email
      against the other rows, merge with `toUserWithPasswordAndRoles`, and
      save the merged user. The merged id comes from the roles, so the row
      written is a new one (roles null), the row whose key the roles spell
      (roles numeric), or none at all (a `NumberFormatException`). */
  function Update(s: Store, u: User, encode: string -> string): (r: (Result<()>, Store))
    requires Repo.Valid(s)
    ensures Repo.Valid(r.1)
    ensures u.id.Null? ==> r == (Err(NullId), s)
    ensures u.id.Present? && u.id.value !in s.rows ==> r == (Err(NotFound(UserNotFound)), s)
    ensures r.0.Err? ==> r.1 == s
    ensures (r.0.Err? && r.0.failure.EmailAlreadyExists?) <==>
              u.id.Present? && u.id.value in s.rows && EmailHeldByOther(s, u.email, u.id.value)
    ensures (r.0.Err? && r.0.failure.NumberFormat?) <==>
              && u.id.Present? && u.id.value in s.rows && !EmailHeldByOther(s, u.email, u.id.value)
              && RolesToId(u.roles).Err?
    ensures r.0.Ok? <==>
              && u.id.Present? && u.id.value in s.rows && !EmailHeldByOther(s, u.email, u.id.value)
              && RolesToId(u.roles).Ok?
    ensures r.0.Err? && r.0.failure.EmailAlreadyExists? ==> r.0.failure == EmailAlreadyExists(EmailExistsMessage(u.email))
    ensures r.0.Err? && r.0.failure.NumberFormat? ==> r.0.failure == NumberFormat(u.roles.value)
    ensures r.0.Ok? && u.roles.Null? ==>
              s.nextId !in s.rows && WroteMergeAt(s, r.1, s.nextId, u, s.rows[u.id.value], encode)
    ensures r.0.Ok? && u.roles.Present? ==>
              ParseLong(u.roles.value).Present? && WroteMergeAt(s, r.1, ParseLong(u.roles.value).value, u, s.rows[u.id.value], encode)
  {
    match u.id
    case Null => (Err(NullId), s)
    case Present(id) =>
      match FindByIdOrThrowNotFound(s, id)
      case Err(f) => (Err(f), s)
      case Ok(_) => UpdateFound(s, u, id, encode)
  }

  /** `update` as evidently intended: the merged user keeps the stored id,
      so the row being updated is replaced in place. */
  function UpdateIntended(s: Store, u: User, encode: string -> string): (r: (Result<()>, Store))
    requires Repo.Valid(s)
    ensures Repo.Valid(r.1)
    ensures u.id.Null? ==> r == (Err(NullId), s)
    ensures u.id.Present? && u.id.value !in s.rows ==> r == (Err(NotFound(UserNotFound)), s)
    ensures r.0.Err? ==> r.1 == s
    ensures r.0.Ok? <==> u.id.Present? && u.id.value in s.rows && !EmailHeldByOther(s, u.email, u.id.value)
    ensures r.0.Ok? ==> ReplacedInPlace(s, r.1, u.id.value, u, encode)
  {
    match u.id
    case Null => (Err(NullId), s)
    case Present(id) =>
      match FindByIdOrThrowNotFound(s, id)
      case Err(f) => (Err(f), s)
      case Ok(_) => UpdateIntendedFound(s, u, id, encode)
  }

  /** `s'` has the keys of `s`; under `id` it holds the merge of `u` into
      the stored user, still carrying `id`; every other row is unchanged. */
  predicate ReplacedInPlace(s: Store, s': Store, id: int, u: User, encode: string -> string)
    requires id in s.rows
  {
    && s'.rows.Keys == s.rows.Keys
    && s'.rows[id].id == Present(id)
    && MergedFrom(s'.rows[id], u, u.password, s.rows[id], encode)
    && forall j :: j in s.rows && j != id ==> s'.rows[j] == s.rows[j]
  }

  /** The intended update after the user was found. */
  function UpdateIntendedFound(s: Store, u: User, id: int, encode: string -> string): (r: (Result<()>, Store))
    requires Repo.Valid(s)
    requires u.id == Present(id) && id in s.rows
    ensures Repo.Valid(r.1)
    ensures r.0.Err? ==> r.1 == s
    ensures r.0.Ok? <==> !EmailHeldByOther(s, u.email, id)
    ensures r.0.Err? ==> r.0.failure == EmailAlreadyExists(EmailExistsMessage(u.email))
    ensures r.0.Ok? ==> ReplacedInPlace(s, r.1, id, u, encode)
  {
    match AssertEmailDoesNotExistForOther(s, u.email, id)
    case Err(f) => (Err(f), s)
    case Ok(_) =>
      var merged := ToUserWithPasswordAndRolesIntended(u, u.password, s.rows[id], encode);
      SaveReplacesInPlace(s, u, id, merged, encode);
      (Ok(()), Repo.Save(s, merged).1)
  }

  lemma SaveReplacesInPlace(s: Store, u: User, id: int, merged: User, encode: string -> string)
    requires Repo.Valid(s) && id in s.rows
    requires merged.id == Present(id) && MergedFrom(merged, u, u.password, s.rows[id], encode)
    ensures Repo.Valid(Repo.Save(s, merged).1)
    ensures ReplacedInPlace(s, Repo.Save(s, merged).1, id, u, encode)
  {
    var s' := Repo.Save(s, merged).1;
    assert s'.rows == s.rows[id := merged];
  }

  /** The intended update keeps the emails of the table pairwise distinct. */
  lemma UpdateIntendedKeepsEmailsUnique(s: Store, u: User, encode: string -> string)
    requires Repo.Valid(s) && Repo.EmailsUnique(s)
    ensures UpdateIntended(s, u, encode).0.Ok? ==> Repo.EmailsUnique(UpdateIntended(s, u, encode).1)
  {
    var (r, s') := UpdateIntended(s, u, encode);
    if r.Ok? {
      var id := u.id.value;
      assert s'.rows[id].email == u.email;
      assert !EmailHeldByOther(s, u.email, id);
      WriteKeepsEmailsUnique(s, s', id);
    }
  }

  /** In a table with distinct emails, a user keeping its own email passes
      the check against the other rows. */
  lemma KeepingOwnEmailPassesCheck(s: Store, id: int)
    requires Repo.Valid(s) && Repo.EmailsUnique(s)
    requires id in s.rows
    ensures AssertEmailDoesNotExistForOther(s, s.rows[id].email, id).Ok?
  {
    assert forall k :: k in s.rows && s.rows[k].email == s.rows[id].email ==> k == id;
  }

  /** A valid POST body, once saved into a table that does not hold its
      email, is stored under a fresh positive id, and the response built
      from it echoes the body's names and email. */
  lemma CreateStoresRequest(s: Store, req: UserRequests.UserPostRequest, encode: string -> string)
    requires Repo.Valid(s)
    requires !EmailHeld(s, req.email)
    ensures var (r, s') := Save(s, ToUserFromPost(req, encode));
      && r.Ok?
      && r.value.id.Present? && r.value.id.value >= 1 && r.value.id.value !in s.rows
      && s'.rows[r.value.id.value] == r.value
      && r.value.roles == Present(DefaultRole)
      && ToUserGetResponse(r.value) == UserGetResponse(r.value.id, req.firstName, req.lastName, req.email)
  {
    var u := ToUserFromPost(req, encode);
    var (r, s') := Save(s, u);
    assert r.value == u.(id := r.value.id);
  }

  /** As written, updating a stored user from a PUT body neither fails nor
      touches that user's row: the merge has no id, so the save inserts a
      second row under the next identity value, carrying the body's names
      and email and the stored password hash and roles. */
  lemma UpdateFromPutInsertsRow(s: Store, req: UserRequests.UserPutRequest, encode: string -> string)
    requires Repo.Valid(s)
    requires req.id.Present? && req.id.value in s.rows
    requires !EmailHeldByOther(s, req.email, req.id.value)
    ensures var (r, s') := Update(s, ToUserFromPut(req), encode);
      var id := req.id.value;
      && r.Ok?
      && s'.rows[id] == s.rows[id]
      && s.nextId != id && s.nextId in s'.rows
      && s'.rows[s.nextId].email == req.email
      && s'.rows[s.nextId].password == s.rows[id].password
      && s'.rows.Keys == s.rows.Keys + {s.nextId}
  {
    var u := ToUserFromPut(req);
    var id := req.id.value;
    var s' := Update(s, u, encode).1;
    assert RolesToId(u.roles).Ok?;
    assert WroteMergeAt(s, s', s.nextId, u, s.rows[id], encode);
  }

  /** Consequently a PUT that keeps the user's email leaves two rows holding
      it, although the table held each email once before. */
  lemma UpdateFromPutDuplicatesEmail(s: Store, req: UserRequests.UserPutRequest, encode: string -> string)
    requires Repo.Valid(s) && Repo.EmailsUnique(s)
    requires req.id.Present? && req.id.value in s.rows
    requires req.email == s.rows[req.id.value].email
    ensures Update(s, ToUserFromPut(req), encode).0.Ok?
    ensures !Repo.EmailsUnique(Update(s, ToUserFromPut(req), encode).1)
  {
    var id := req.id.value;
    KeepingOwnEmailPassesCheck(s, id);
    UpdateFromPutInsertsRow(s, req, encode);
    var s' := Update(s, ToUserFromPut(req), encode).1;
    assert s'.rows[id].email == s'.rows[s.nextId].email && id != s.nextId;
  }

  /** A table holding one user. */
  const OneUser: Store :=
    Repo.Store(map[1 := User(Present(1), Present("Leo"), Present("Wings"), Present("leo@mail.com"), Present("hash"), Present(DefaultRole))], 2)

  /** The concrete case: a PUT body that renames user 1 and keeps its
      email succeeds and leaves rows 1 and 2 both holding "leo@mail.com". */
  lemma UpdateOneUserCounterexample(encode: string -> string)
    ensures var req := UserRequests.UserPutRequest(Present(1), Present("Leonardo"), Present("Wings"), Present("leo@mail.com"));
      var (r, s') := Update(OneUser, ToUserFromPut(req), encode);
      && r.Ok?
      && s'.rows.Keys == {1, 2}
      && s'.rows[1].email == s'.rows[2].email == Present("leo@mail.com")
      && s'.rows[1].firstName == Present("Leo")
  {
    var req := UserRequests.UserPutRequest(Present(1), Present("Leonardo"), Present("Wings"), Present("leo@mail.com"));
    assert Repo.Valid(OneUser) && Repo.EmailsUnique(OneUser);
    UpdateFromPutInsertsRow(OneUser, req, encode);
  }
}
